=== FILE: README.md ===
# PCO Services tool server — request- and result-shaping core

This project models, in Dafny, the deterministic core of a small server that exposes the
Planning Center Online (PCO) "Services" API as callable tools (`services.py`). Every HTTP call is
replaced by an abstract value: a tool is modelled as the body it would send, or as the list of
upstream requests it issues together with what it returns, given the upstream responses as
parameters.

What is modelled:

- **JSON:API write envelope** (`Envelope`): `**kwargs` is a map from keyword to JSON value,
  with Python's `None` as JSON null. `_build_patch_body` keeps exactly the keyword arguments that are not `None`, unchanged,
  under `data.attributes`, beside `data.type`. An attribute is never sent as null.
- **Create, update and assignment bodies** (`Builders`): required fields are always written.
  Each optional field is written exactly when it is supplied. Every create tool agrees with the
  PATCH filter, except `create_song`: it writes the CCLI number under `ccli_number` only when it
  is truthy, so an empty string is dropped too. The module also covers the `ItemReorder` body, the
  `PlanPerson` body with its `person` relationship, and the `decline_schedule` body, which is `{}`
  when no reason is given and carries no `type`.
- **Tag resolution and the two tag tools** (`Tags`): each requested name, in order, resolves to
  the id of the first included `Tag` entry whose lower-cased name equals the lower-cased request.
  Unmatched names are dropped. The functional definition is proved equal to the nested
  `for … break` loop the tools use. `assign_tags_to_song` fails soft, with no POST, when nothing
  resolves. `find_songs_by_tags` returns `[]` with no second GET when nothing resolves; otherwise
  its query is a fixed prefix followed by one `where[song_tag_ids]=<id>` clause per resolved id.
- **Token verification and client factory** (`Auth`): `verify_token` gives `None` for a
  transport failure, a non-200 status or a malformed body. Otherwise it builds an access token
  that carries the input token verbatim, with the fixed client id `pco` and scopes
  `services`, `people`. `get_pco` fails exactly when the upstream-token claim is missing or
  falsy.
- Support modules: `Wrappers` (`Option`, `Result`), `Json` (a JSON value type and path
  lookup), `Text` (ASCII lower-casing, decimal rendering, `&`-join and split).

Two edge cases of the code that are easy to miss:

- A missing `data.id` or `data.attributes` in the identity reply raises inside the `try`
  (services.py:33-41), so `Auth.VerifyToken` gives `None`: both members are required.
- `get_pco` fails when the upstream-token claim is missing *or falsy* (services.py:72), not only
  when it is absent. `Auth.GetPco` follows this. As a consequence, a token that verified but is
  the empty string cannot build a client (`Auth.VerifiedTokenBindsClient`).

## Model

| member | source | states |
|---|---|---|
| Envelope.PresentAttributes | services.py:79 | every keyword argument is a key of the result iff its value is not `None`, and then maps to that value unchanged; no other key appears, and no value is null |
| Envelope.PatchBody | services.py:77-85 | the PATCH body is `{data: {type, attributes}}` with exactly these keys; `type` is the given resource type; the attributes carry each supplied argument and nothing else |
| Envelope.PatchBodyAllAbsent | services.py:77-85 | with every argument `None`, a body is still produced and its attributes object is empty |
| Envelope.PatchBodyExample | services.py:77-85 | `_build_patch_body("X", a=1, b=None)` is exactly `{data: {type: "X", attributes: {a: 1}}}` |
| Envelope.PresentAttributesUnique | services.py:79 | the filtered map is the only map that carries every keyword argument (present iff supplied, same value) and no other key |
| Builders.CreateServiceTypeBody | services.py:113-119 | a `ServiceType` template that always has `name`, has `frequency`/`sequence` iff supplied, and no other key |
| Builders.CreatePlanBody | services.py:185-193 | a `Plan` template whose `title`, `public` and `series_title` are each present iff supplied; no argument gives an empty map |
| Builders.CreatePlanTimeBody | services.py:271-277 | a `PlanTime` template that always has `starts_at` and `ends_at`, has `time_type`/`name` iff supplied, and no other key |
| Builders.CreatePlanItemBody | services.py:377-391 | an `Item` template that always has `title` and `item_type`, has each of the six optional fields iff supplied, and no other key |
| Builders.CreateSongBody | services.py:728-732 | a `Song` template that always has `title`; `ccli_number` is present iff the CCLI argument is given and non-empty, with that value; there is no `ccli` key |
| Builders.ReorderPlanItemsBody | services.py:476-483 | exactly `{data: {type, attributes}}` with type `ItemReorder`, whose only attribute `sequence` reads back as exactly the given item ids, in order |
| Builders.AssignTeamMemberBody | services.py:531-549 | exactly `{data: {type, attributes, relationships}}` with type `PlanPerson`; `attributes` is always an object; the three optional attributes are each present iff supplied and nothing else is; `relationships` is exactly `{person: {data: {type: "Person", id: person_id}}}` |
| Builders.DeclineScheduleBody | services.py:667-669 | the body is `{}` iff no reason is given; with a reason it is exactly `{data: {attributes: {reason}}}`; neither form has a `type` |
| Builders.UpdateServiceTypeBody | services.py:137 | exactly `{data: {type, attributes}}` with type `ServiceType`, `attributes` is always an object (`{}` when nothing is supplied), where `name`, `frequency` and `sequence` are each an attribute iff supplied, and there is no other attribute |
| Builders.UpdatePlanBody | services.py:212 | exactly `{data: {type, attributes}}` with type `Plan`, `attributes` is always an object (`{}` when nothing is supplied), where `title`, `public` and `series_title` are each an attribute iff supplied, and there is no other attribute |
| Builders.UpdatePlanTimeBody | services.py:302 | exactly `{data: {type, attributes}}` with type `PlanTime`, `attributes` is always an object (`{}` when nothing is supplied), where even `starts_at` and `ends_at` are attributes only when supplied, likewise `time_type` and `name`, and there is no other attribute |
| Builders.UpdatePlanItemBody | services.py:427-434 | exactly `{data: {type, attributes}}` with type `Item`, `attributes` is always an object (`{}` when nothing is supplied), where each of the five optional fields is an attribute iff supplied, and there is no other attribute |
| Builders.UpdateTeamMemberBody | services.py:582-587 | exactly `{data: {type, attributes}}` with type `PlanPerson`, `attributes` is always an object (`{}` when nothing is supplied), where `status`, `notes` and `team_position_name` are each an attribute iff supplied, and there is no other attribute |
| Builders.ServiceTypeFollowsPatchRule | services.py:113-117 | `create_service_type` writes exactly what the PATCH filter keeps of the same arguments |
| Builders.PlanFollowsPatchRule | services.py:185-191 | `create_plan` writes exactly what the PATCH filter keeps of the same arguments |
| Builders.PlanTimeFollowsPatchRule | services.py:271-275 | `create_plan_time` writes exactly what the PATCH filter keeps of the same arguments |
| Builders.PlanItemFollowsPatchRule | services.py:377-389 | `create_plan_item` writes exactly what the PATCH filter keeps of the same arguments |
| Builders.TeamMemberFollowsPatchRule | services.py:531-537 | `assign_team_member` writes exactly what the PATCH filter keeps of its three optional arguments |
| Builders.IncludeFollowsPatchRule | services.py:79 | adding a new keyword to the arguments extends the filtered map exactly as one `if x is not None` step does |
| Builders.SongFollowsPatchRuleUnlessEmpty | services.py:728-730 | `create_song` agrees with the PATCH filter iff the CCLI argument is not the empty string (truthiness, not `is not None`) |
| Tags.FirstMatch | services.py:794-800 | the chosen position holds a `Tag` whose lower-cased name equals the request and no earlier entry matches; `None` iff no entry matches |
| Tags.ResolveTagIds | services.py:792-800 | at most one id per requested name, since the inner scan stops at the first match |
| Tags.ResolvedIdsAreMatches | services.py:794-797 | every resolved id is the id of an included `Tag` entry whose lower-cased name equals some lower-cased requested name |
| Tags.ResolvedNothingIffNoMatch | services.py:792-802 | the resolution is empty iff no requested name matches any included `Tag` entry, which is the condition of the soft failure |
| Tags.ResolveAppend | services.py:793-800 | resolving a concatenation of requests is the concatenation of the resolutions, so the output follows the order of the requests |
| Tags.ResolveAllMatched | services.py:792-800 | when every name matches, the output has one id per name and the i-th id is that of the first match for the i-th name |
| Tags.DuplicateRequestRepeatsId | services.py:793-800 | a name requested twice yields the same first-match id twice |
| Tags.FirstMatchIgnoresCase | services.py:795 | requests that agree after lower-casing select the same entry |
| Tags.ResolveIgnoresCase | services.py:833-838 | request lists that agree after lower-casing, name by name, resolve to the same ids |
| Tags.FirstCaseVariantWins | services.py:794-800 | with `Worship` (id 1) listed before `worship` (id 2), a request for `WORSHIP` resolves to `["1"]` |
| Tags.ResolveTagIdsByScan | services.py:792-800 | the nested scan-and-break loop computes exactly the functional resolution |
| Tags.AssignTagsBody | services.py:805-815 | exactly `{data: {type, attributes, relationships}}` with type `TagAssignment` and empty attributes; `relationships` is exactly `{tags: {data: [...]}}` listing `{type: "Tag", id}` for every resolved id, in order |
| Tags.TagRefsRoundTrip | services.py:796-799 | the tag references sent in the assignment read back as exactly the resolved ids, in order, each with type `Tag` |
| Tags.AssignTagsToSong | services.py:788-819 | fails soft iff no requested name matches, and then issues only the tag-groups GET and returns `{success: false, message: "No matching tags found"}`; otherwise POSTs one assignment of the resolved ids and reports their count |
| Tags.FindSongsByTags | services.py:829-847 | issues only the tag-groups GET and returns `[]` iff no requested name matches; otherwise issues one songs GET with the prefix plus the tag filter and returns its data |
| Tags.TagFilterRoundTrip | services.py:843 | splitting the tag filter on `&` and removing each clause prefix gives back exactly the resolved ids, when no id contains `&` |
| Tags.FindSongsQuerySelectsResolvedIds | services.py:843-846 | the songs query starts with the fixed prefix and the rest selects exactly the resolved ids, in order |
| Tags.SoftFailuresCoincide | services.py:802-841 | `assign_tags_to_song` fails soft exactly when `find_songs_by_tags` stops after its first request |
| Text.NatToStringRoundTrip | services.py:819 | the count printed in the success message reads back as the number of assigned tags |
| Text.SplitJoinRoundTrip | services.py:843 | splitting on `&` undoes `'&'.join` when no piece contains `&` |
| Auth.VerifyToken | services.py:22-48 | `None` on transport failure, non-200 status or a body without `data.id` and an object `data.attributes`; otherwise `token` is the input, client id `pco`, scopes `services`,`people`, claim `pco_access_token` is the input, `sub` is `data.id` and `email` is the attribute or null |
| Auth.GetPco | services.py:69-74 | fails with "No PCO access token available" iff the `pco_access_token` claim is missing or falsy; otherwise the client is bound to exactly that claim |
| Auth.VerifiedTokenBindsClient | services.py:69-74 | a token that verified builds a client iff it is non-empty, and that client is bound to the verified token itself |

## Left out

- The HTTP GET to `/people/v2/me`, its 10-second timeout and its exception handling: the reply is a parameter (`Auth.IdentityReply`). A transport failure, a timeout and a JSON decode error are all collapsed into its cases.
- Auth.VerifyToken: does not model the `name` claim (`f"{first} {last}".strip()`), because Python's string conversion of arbitrary JSON values and whitespace stripping add nothing to the bridge's behaviour; the other three claims are modelled.
- `OAuthProxy` construction, environment and `.env` loading, the JWT signing key, `FastMCP` tool registration, `Depends` injection and `mcp.run`: framework configuration and transport plumbing.
- `pypco`: `pco.template` is an opaque constructor (`Builders.Body`), so the envelope it builds is not modelled. `pco.get`/`post`/`patch`/`delete` are not modelled, and neither is unwrapping `response["data"]` for the create and update tools.
- Endpoint paths of the create, update and delete tools: fixed string formatting of the ids. Only the tag tools' paths are modelled.
- The plain list and get tools (`get_service_types`, `get_plans`, `get_plan_times`, `get_plan_items`, `get_plan_team_members`, `get_person_schedules`, `get_songs`, `get_song`, `find_song_by_title`, `get_all_arrangements_for_song`, `get_arrangement_for_song`, `get_keys_for_arrangement_of_song`): a fixed path and returning `response['data']`.
- The confirmations of `delete_service_type`, `delete_plan`, `delete_plan_time`, `delete_plan_item`, `remove_team_member`, `accept_schedule` and `reorder_plan_items`: fixed message formatting. `accept_schedule` posts `{}`.
- `asyncio.to_thread` and concurrency between tool calls.
- Tags.IsMatch: lower-cases ASCII letters only; full Unicode `str.lower()` is not modelled.
- Tags.ResolveTagIds: included entries are typed records with a type, an id and a name. A malformed upstream entry, which would make the Python loop raise, is not modelled.
- Tags.FindSongsByTags: takes the songs response's `data` field directly. The `KeyError` for a response without `data` is not modelled.
- Tags.TagFilterRoundTrip: holds only for ids without `&`. The code formats each id into the query unescaped, so the round trip rests on the assumption that PCO tag ids never contain `&`.
- JSON objects are maps, so dictionary key order is not modelled. JSON numbers are integers only, so floats are not modelled.
- Validation that the `AccessToken` record type may apply to its fields is not modelled.

=== FILE: auth.dfy ===
/**
 * The token-verification bridge: `PCOTokenVerifier.verify_token` maps the upstream identity
 * check to an access token, and `get_pco` derives the per-request client from that token.
 */
module Auth {
  import opened Wrappers
  import opened Json

  /**
   * The outcome of the GET to the upstream "who am I" endpoint: a transport failure or timeout,
   * or a reply with its status and its body parsed as JSON (`None` when it is not JSON).
   */
  datatype IdentityReply = TransportFailure | Reply(status: int, body: Option<Json>)

  /** The access-token record handed to every tool call. */
  datatype AccessToken = AccessToken(token: string, clientId: string, scopes: seq<string>, claims: map<string, Json>)

  /** A client bound to exactly one upstream credential. */
  datatype ScopedClient = ScopedClient(upstreamToken: Json)

  /** The configuration defect `get_pco` raises. */
  datatype ConfigError = ConfigError(message: string)

  const ClientId: string := "pco"
  const GrantedScopes: seq<string> := ["services", "people"]
  const UpstreamTokenClaim: string := "pco_access_token"
  const NoUpstreamTokenMessage: string := "No PCO access token available"

  /**
   * The person's id and attributes object read from the identity reply's `data` member,
   * or `None` when the body, `data`, its `id` or an object `attributes` is missing.
   */
  function Identity(body: Option<Json>): Option<(Json, map<string, Json>)> {
    match body
    case Some(JObject(doc)) =>
      if "data" in doc && doc["data"].JObject? then
        var data := doc["data"].fields;
        if "attributes" in data && data["attributes"].JObject? && "id" in data
        then Some((data["id"], data["attributes"].fields))
        else None
      else None
    case _ => None
  }

  /** The attribute stored under `key`, or JSON null when there is none. */
  function GetOrNull(attrs: map<string, Json>, key: string): Json {
    if key in attrs then attrs[key] else JNull
  }

  /**
   * `verify_token`: `None` for a transport failure, any status other than 200, or a body that
   * does not have the expected shape; otherwise a token that carries the input token verbatim,
   * both as itself and as the upstream credential claim, with the fixed client id and scopes.
   */
  function VerifyToken(token: string, reply: IdentityReply): (r: Option<AccessToken>)
    ensures reply.TransportFailure? ==> r.None?
    ensures reply.Reply? && reply.status != 200 ==> r.None?
    ensures r.Some? <==>
      && reply.Reply? && reply.status == 200 && reply.body.Some?
      && At(reply.body.value, ["data", "id"]).Some?
      && At(reply.body.value, ["data", "attributes"]).Some?
      && At(reply.body.value, ["data", "attributes"]).value.JObject?
    ensures r.Some? ==>
      && r.value.token == token
      && r.value.clientId == "pco"
      && r.value.scopes == ["services", "people"]
      && UpstreamTokenClaim in r.value.claims
      && r.value.claims[UpstreamTokenClaim] == JString(token)
      && "sub" in r.value.claims
      && Some(r.value.claims["sub"]) == At(reply.body.value, ["data", "id"])
      && "email" in r.value.claims
      && r.value.claims["email"] == At(reply.body.value, ["data", "attributes", "primary_email_address"]).GetOr(JNull)
  {
    match reply
    case TransportFailure => None
    case Reply(status, body) =>
      if status != 200 then None
      else match Identity(body)
        case None => None
        case Some((id, attrs)) =>
          Some(AccessToken(token, ClientId, GrantedScopes, map[
            "sub" := id,
            "email" := GetOrNull(attrs, "primary_email_address"),
            UpstreamTokenClaim := JString(token)]))
  }

  /**
   * `get_pco`: fails with the configuration defect exactly when the upstream credential claim
   * is missing or falsy, and otherwise binds a client to exactly that credential.
   */
  function GetPco(t: AccessToken): (r: Result<ScopedClient, ConfigError>)
    ensures r.Failure? <==> UpstreamTokenClaim !in t.claims || !Truthy(t.claims[UpstreamTokenClaim])
    ensures r.Failure? ==> r.error == ConfigError(NoUpstreamTokenMessage)
    ensures r.Success? ==> r.value.upstreamToken == t.claims[UpstreamTokenClaim]
  {
    if UpstreamTokenClaim in t.claims && Truthy(t.claims[UpstreamTokenClaim])
    then Success(ScopedClient(t.claims[UpstreamTokenClaim]))
    else Failure(ConfigError(NoUpstreamTokenMessage))
  }

  /**
   * A verified token always yields a client bound to the very token that was verified, except
   * when the verified token is the empty string: then `get_pco` raises its configuration defect.
   */
  lemma VerifiedTokenBindsClient(token: string, reply: IdentityReply)
    requires VerifyToken(token, reply).Some?
    ensures GetPco(VerifyToken(token, reply).value).Success? <==> token != ""
    ensures GetPco(VerifyToken(token, reply).value).Success? ==>
      GetPco(VerifyToken(token, reply).value).value == ScopedClient(JString(token))
  {
  }
}

=== FILE: builders.dfy ===
/**
 * The request bodies the create, update and assignment tools send upstream.
 * Required arguments are always written; an optional argument is written only when supplied.
 */
module Builders {
  import opened Wrappers
  import opened Json
  import opened Envelope

  /** What `pco.template(type, attributes)` is handed; the envelope it wraps them in is the client library's. */
  datatype Body = Template(resourceType: string, attributes: map<string, Json>)

  /** Adds `key` with the value `v` unless `v` is null (Python's `None`). */
  function Include(attrs: map<string, Json>, key: string, v: Json): map<string, Json> {
    if !v.JNull? then attrs[key := v] else attrs
  }

  // ---------------------------------------------------------------------------
  // Create tools (POST through `pco.template`)
  // ---------------------------------------------------------------------------

  /** `create_service_type`: `name` always, `frequency` and `sequence` when supplied. */
  function CreateServiceTypeBody(name: string, frequency: Option<string>, sequence: Option<int>): (b: Body)
    ensures b.resourceType == "ServiceType"
    ensures b.attributes.Keys <= {"name", "frequency", "sequence"}
    ensures Carries(b.attributes, "name", JString(name))
    ensures Carries(b.attributes, "frequency", OptString(frequency))
    ensures Carries(b.attributes, "sequence", OptInt(sequence))
  {
    var attrs := map["name" := JString(name)];
    var attrs := Include(attrs, "frequency", OptString(frequency));
    var attrs := Include(attrs, "sequence", OptInt(sequence));
    Template("ServiceType", attrs)
  }

  /** `create_plan`: every attribute is optional, so no argument gives an empty attributes map. */
  function CreatePlanBody(title: Option<string>, public: Option<bool>, seriesTitle: Option<string>): (b: Body)
    ensures b.resourceType == "Plan"
    ensures b.attributes.Keys <= {"title", "public", "series_title"}
    ensures Carries(b.attributes, "title", OptString(title))
    ensures Carries(b.attributes, "public", OptBool(public))
    ensures Carries(b.attributes, "series_title", OptString(seriesTitle))
  {
    var attrs := map[];
    var attrs := Include(attrs, "title", OptString(title));
    var attrs := Include(attrs, "public", OptBool(public));
    var attrs := Include(attrs, "series_title", OptString(seriesTitle));
    Template("Plan", attrs)
  }

  /** `create_plan_time`: `starts_at` and `ends_at` always, `time_type` and `name` when supplied. */
  function CreatePlanTimeBody(startsAt: string, endsAt: string, timeType: Option<string>, name: Option<string>): (b: Body)
    ensures b.resourceType == "PlanTime"
    ensures b.attributes.Keys <= {"starts_at", "ends_at", "time_type", "name"}
    ensures Carries(b.attributes, "starts_at", JString(startsAt))
    ensures Carries(b.attributes, "ends_at", JString(endsAt))
    ensures Carries(b.attributes, "time_type", OptString(timeType))
    ensures Carries(b.attributes, "name", OptString(name))
  {
    var attrs := map["starts_at" := JString(startsAt), "ends_at" := JString(endsAt)];
    var attrs := Include(attrs, "time_type", OptString(timeType));
    var attrs := Include(attrs, "name", OptString(name));
    Template("PlanTime", attrs)
  }

  /** `create_plan_item`: `title` and `item_type` always, six further attributes when supplied. */
  function CreatePlanItemBody(title: string, itemType: string, length: Option<int>,
                              servicePosition: Option<string>, description: Option<string>,
                              songId: Option<string>, arrangementId: Option<string>,
                              keyId: Option<string>): (b: Body)
    ensures b.resourceType == "Item"
    ensures b.attributes.Keys <= {"title", "item_type", "length", "service_position", "description",
                                  "song_id", "arrangement_id", "key_id"}
    ensures Carries(b.attributes, "title", JString(title))
    ensures Carries(b.attributes, "item_type", JString(itemType))
    ensures Carries(b.attributes, "length", OptInt(length))
    ensures Carries(b.attributes, "service_position", OptString(servicePosition))
    ensures Carries(b.attributes, "description", OptString(description))
    ensures Carries(b.attributes, "song_id", OptString(songId))
    ensures Carries(b.attributes, "arrangement_id", OptString(arrangementId))
    ensures Carries(b.attributes, "key_id", OptString(keyId))
  {
    var attrs := map["title" := JString(title), "item_type" := JString(itemType)];
    var attrs := Include(attrs, "length", OptInt(length));
    var attrs := Include(attrs, "service_position", OptString(servicePosition));
    var attrs := Include(attrs, "description", OptString(description));
    var attrs := Include(attrs, "song_id", OptString(songId));
    var attrs := Include(attrs, "arrangement_id", OptString(arrangementId));
    var attrs := Include(attrs, "key_id", OptString(keyId));
    Template("Item", attrs)
  }

  /**
   * `create_song`: `title` always; the CCLI number is written under the key `ccli_number`, and only
   * when it is truthy, so an empty string is dropped just like `None`.
   */
  function CreateSongBody(title: string, ccli: Option<string>): (b: Body)
    ensures b.resourceType == "Song"
    ensures b.attributes.Keys <= {"title", "ccli_number"}
    ensures Carries(b.attributes, "title", JString(title))
    ensures "ccli_number" in b.attributes <==> ccli.Some? && ccli.value != ""
    ensures "ccli_number" in b.attributes ==> b.attributes["ccli_number"] == JString(ccli.value)
  {
    var attrs := map["title" := JString(title)];
    var attrs := if ccli.Some? && Truthy(JString(ccli.value)) then attrs["ccli_number" := JString(ccli.value)] else attrs;
    Template("Song", attrs)
  }

  // ---------------------------------------------------------------------------
  // Hand-built POST bodies
  // ---------------------------------------------------------------------------

  /** `reorder_plan_items`: an `ItemReorder` whose `sequence` is the full requested order, read back intact. */
  function ReorderPlanItemsBody(itemIds: seq<string>): (body: Json)
    ensures TypeOf(body) == Some(JString("ItemReorder"))
    ensures KeysOf(body) == {"data"} && KeysOf(DataOf(body)) == {"type", "attributes"}
    ensures Field(DataOf(body), "attributes") == Some(JObject(AttributesOf(body)))
    ensures AttributesOf(body).Keys == {"sequence"}
    ensures StringsOf(AttributesOf(body)["sequence"]) == Some(itemIds)
  {
    StringsRoundTrip(itemIds);
    JObject(map["data" := JObject(map[
      "type" := JString("ItemReorder"),
      "attributes" := JObject(map["sequence" := Strings(itemIds)])])])
  }

  /**
   * `assign_team_member`: a `PlanPerson` whose optional attributes follow the omit-if-absent rule
   * and whose `person` relationship always points at `personId`.
   */
  function AssignTeamMemberBody(personId: string, teamPositionName: Option<string>,
                                status: Option<string>, prepareNotification: Option<bool>): (body: Json)
    ensures TypeOf(body) == Some(JString("PlanPerson"))
    ensures AttributesOf(body).Keys <= {"team_position_name", "status", "prepare_notification"}
    ensures Carries(AttributesOf(body), "team_position_name", OptString(teamPositionName))
    ensures Carries(AttributesOf(body), "status", OptString(status))
    ensures Carries(AttributesOf(body), "prepare_notification", OptBool(prepareNotification))
    ensures KeysOf(body) == {"data"} && KeysOf(DataOf(body)) == {"type", "attributes", "relationships"}
    ensures Field(DataOf(body), "attributes") == Some(JObject(AttributesOf(body)))
    ensures Field(DataOf(body), "relationships")
         == Some(JObject(map["person" := JObject(map["data" := JObject(map["type" := JString("Person"),
                                                                           "id" := JString(personId)])])]))
  {
    var attrs := map[];
    var attrs := Include(attrs, "team_position_name", OptString(teamPositionName));
    var attrs := Include(attrs, "status", OptString(status));
    var attrs := Include(attrs, "prepare_notification", OptBool(prepareNotification));
    JObject(map["data" := JObject(map[
      "type" := JString("PlanPerson"),
      "attributes" := JObject(attrs),
      "relationships" := JObject(map[
        "person" := JObject(map[
          "data" := JObject(map["type" := JString("Person"), "id" := JString(personId)])])])])])
  }

  /**
   * `decline_schedule`: the empty object when no reason is given, otherwise
   * `{data: {attributes: {reason}}}`. Neither form carries a resource `type`.
   */
  function DeclineScheduleBody(reason: Option<string>): (body: Json)
    ensures body == JObject(map[]) <==> reason.None?
    ensures TypeOf(body) == None
    ensures reason.Some? ==> KeysOf(body) == {"data"} && KeysOf(DataOf(body)) == {"attributes"}
    ensures reason.Some? ==> Field(DataOf(body), "attributes") == Some(JObject(map["reason" := JString(reason.value)]))
  {
    match reason
    case None => JObject(map[])
    case Some(r) =>
      var fields := map["data" := JObject(map["attributes" := JObject(map["reason" := JString(r)])])];
      assert "data" in fields;
      JObject(fields)
  }

  // ---------------------------------------------------------------------------
  // Update tools (PATCH through `_build_patch_body`)
  // ---------------------------------------------------------------------------

  /** `update_service_type`. */
  function UpdateServiceTypeBody(name: Option<string>, frequency: Option<string>, sequence: Option<int>): (body: Json)
    ensures TypeOf(body) == Some(JString("ServiceType"))
    ensures KeysOf(body) == {"data"} && KeysOf(DataOf(body)) == {"type", "attributes"}
    ensures Field(DataOf(body), "attributes") == Some(JObject(AttributesOf(body)))
    ensures AttributesOf(body).Keys <= {"name", "frequency", "sequence"}
    ensures Carries(AttributesOf(body), "name", OptString(name))
    ensures Carries(AttributesOf(body), "frequency", OptString(frequency))
    ensures Carries(AttributesOf(body), "sequence", OptInt(sequence))
  {
    PatchBody("ServiceType", map["name" := OptString(name),
                                 "frequency" := OptString(frequency),
                                 "sequence" := OptInt(sequence)])
  }

  /** `update_plan`. */
  function UpdatePlanBody(title: Option<string>, public: Option<bool>, seriesTitle: Option<string>): (body: Json)
    ensures TypeOf(body) == Some(JString("Plan"))
    ensures KeysOf(body) == {"data"} && KeysOf(DataOf(body)) == {"type", "attributes"}
    ensures Field(DataOf(body), "attributes") == Some(JObject(AttributesOf(body)))
    ensures AttributesOf(body).Keys <= {"title", "public", "series_title"}
    ensures Carries(AttributesOf(body), "title", OptString(title))
    ensures Carries(AttributesOf(body), "public", OptBool(public))
    ensures Carries(AttributesOf(body), "series_title", OptString(seriesTitle))
  {
    PatchBody("Plan", map["title" := OptString(title),
                          "public" := OptBool(public),
                          "series_title" := OptString(seriesTitle)])
  }

  /** `update_plan_time`: unlike the create tool, the start and end times are optional here. */
  function UpdatePlanTimeBody(startsAt: Option<string>, endsAt: Option<string>,
                              timeType: Option<string>, name: Option<string>): (body: Json)
    ensures TypeOf(body) == Some(JString("PlanTime"))
    ensures KeysOf(body) == {"data"} && KeysOf(DataOf(body)) == {"type", "attributes"}
    ensures Field(DataOf(body), "attributes") == Some(JObject(AttributesOf(body)))
    ensures AttributesOf(body).Keys <= {"starts_at", "ends_at", "time_type", "name"}
    ensures Carries(AttributesOf(body), "starts_at", OptString(startsAt))
    ensures Carries(AttributesOf(body), "ends_at", OptString(endsAt))
    ensures Carries(AttributesOf(body), "time_type", OptString(timeType))
    ensures Carries(AttributesOf(body), "name", OptString(name))
  {
    PatchBody("PlanTime", map["starts_at" := OptString(startsAt),
                              "ends_at" := OptString(endsAt),
                              "time_type" := OptString(timeType),
                              "name" := OptString(name)])
  }

  /** `update_plan_item`: `sequence` can be patched but `item_type` cannot. */
  function UpdatePlanItemBody(title: Option<string>, length: Option<int>, servicePosition: Option<string>,
                              description: Option<string>, sequence: Option<int>): (body: Json)
    ensures TypeOf(body) == Some(JString("Item"))
    ensures KeysOf(body) == {"data"} && KeysOf(DataOf(body)) == {"type", "attributes"}
    ensures Field(DataOf(body), "attributes") == Some(JObject(AttributesOf(body)))
    ensures AttributesOf(body).Keys <= {"title", "length", "service_position", "description", "sequence"}
    ensures Carries(AttributesOf(body), "title", OptString(title))
    ensures Carries(AttributesOf(body), "length", OptInt(length))
    ensures Carries(AttributesOf(body), "service_position", OptString(servicePosition))
    ensures Carries(AttributesOf(body), "description", OptString(description))
    ensures Carries(AttributesOf(body), "sequence", OptInt(sequence))
  {
    PatchBody("Item", map["title" := OptString(title),
                          "length" := OptInt(length),
                          "service_position" := OptString(servicePosition),
                          "description" := OptString(description),
                          "sequence" := OptInt(sequence)])
  }

  /** `update_team_member`. */
  function UpdateTeamMemberBody(status: Option<string>, notes: Option<string>,
                                teamPositionName: Option<string>): (body: Json)
    ensures TypeOf(body) == Some(JString("PlanPerson"))
    ensures KeysOf(body) == {"data"} && KeysOf(DataOf(body)) == {"type", "attributes"}
    ensures Field(DataOf(body), "attributes") == Some(JObject(AttributesOf(body)))
    ensures AttributesOf(body).Keys <= {"status", "notes", "team_position_name"}
    ensures Carries(AttributesOf(body), "status", OptString(status))
    ensures Carries(AttributesOf(body), "notes", OptString(notes))
    ensures Carries(AttributesOf(body), "team_position_name", OptString(teamPositionName))
  {
    PatchBody("PlanPerson", map["status" := OptString(status),
                                "notes" := OptString(notes),
                                "team_position_name" := OptString(teamPositionName)])
  }

  // ---------------------------------------------------------------------------
  // Create tools follow the same omit-if-absent rule as `_build_patch_body`
  // ---------------------------------------------------------------------------

  /** `create_service_type` writes exactly what the PATCH filter keeps of the same arguments. */
  lemma ServiceTypeFollowsPatchRule(name: string, frequency: Option<string>, sequence: Option<int>)
    ensures CreateServiceTypeBody(name, frequency, sequence).attributes
         == PresentAttributes(map["name" := JString(name), "frequency" := OptString(frequency),
                                  "sequence" := OptInt(sequence)])
  {
    PresentAttributesUnique(CreateServiceTypeBody(name, frequency, sequence).attributes,
                            map["name" := JString(name), "frequency" := OptString(frequency),
                                "sequence" := OptInt(sequence)]);
  }

  /** `create_plan` writes exactly what the PATCH filter keeps of the same arguments. */
  lemma PlanFollowsPatchRule(title: Option<string>, public: Option<bool>, seriesTitle: Option<string>)
    ensures CreatePlanBody(title, public, seriesTitle).attributes
         == PresentAttributes(map["title" := OptString(title), "public" := OptBool(public),
                                  "series_title" := OptString(seriesTitle)])
  {
    PresentAttributesUnique(CreatePlanBody(title, public, seriesTitle).attributes,
                            map["title" := OptString(title), "public" := OptBool(public),
                                "series_title" := OptString(seriesTitle)]);
  }

  /** `create_plan_time` writes exactly what the PATCH filter keeps of the same arguments. */
  lemma PlanTimeFollowsPatchRule(startsAt: string, endsAt: string, timeType: Option<string>, name: Option<string>)
    ensures CreatePlanTimeBody(startsAt, endsAt, timeType, name).attributes
         == PresentAttributes(map["starts_at" := JString(startsAt), "ends_at" := JString(endsAt),
                                  "time_type" := OptString(timeType), "name" := OptString(name)])
  {
    PresentAttributesUnique(CreatePlanTimeBody(startsAt, endsAt, timeType, name).attributes,
                            map["starts_at" := JString(startsAt), "ends_at" := JString(endsAt),
                                "time_type" := OptString(timeType), "name" := OptString(name)]);
  }

  /** One more optional argument extends the filtered map exactly as one `Include` step does. */
  lemma IncludeFollowsPatchRule(kwargs: Kwargs, key: string, v: Json)
    requires key !in kwargs
    ensures Include(PresentAttributes(kwargs), key, v) == PresentAttributes(kwargs[key := v])
  {
    PresentAttributesUnique(Include(PresentAttributes(kwargs), key, v), kwargs[key := v]);
  }

  /** `create_plan_item` writes exactly what the PATCH filter keeps of the same arguments. */
  lemma PlanItemFollowsPatchRule(title: string, itemType: string, length: Option<int>,
                                 servicePosition: Option<string>, description: Option<string>,
                                 songId: Option<string>, arrangementId: Option<string>, keyId: Option<string>)
    ensures CreatePlanItemBody(title, itemType, length, servicePosition, description, songId, arrangementId, keyId).attributes
         == PresentAttributes(map["title" := JString(title), "item_type" := JString(itemType),
                                  "length" := OptInt(length), "service_position" := OptString(servicePosition),
                                  "description" := OptString(description), "song_id" := OptString(songId),
                                  "arrangement_id" := OptString(arrangementId), "key_id" := OptString(keyId)])
  {
    var kw := map["title" := JString(title), "item_type" := JString(itemType)];
    PresentAttributesUnique(map["title" := JString(title), "item_type" := JString(itemType)], kw);
    IncludeFollowsPatchRule(kw, "length", OptInt(length));
    kw := kw["length" := OptInt(length)];
    IncludeFollowsPatchRule(kw, "service_position", OptString(servicePosition));
    kw := kw["service_position" := OptString(servicePosition)];
    IncludeFollowsPatchRule(kw, "description", OptString(description));
    kw := kw["description" := OptString(description)];
    IncludeFollowsPatchRule(kw, "song_id", OptString(songId));
    kw := kw["song_id" := OptString(songId)];
    IncludeFollowsPatchRule(kw, "arrangement_id", OptString(arrangementId));
    kw := kw["arrangement_id" := OptString(arrangementId)];
    IncludeFollowsPatchRule(kw, "key_id", OptString(keyId));
  }

  /** `assign_team_member` writes exactly what the PATCH filter keeps of its three optional arguments. */
  lemma TeamMemberFollowsPatchRule(personId: string, teamPositionName: Option<string>,
                                   status: Option<string>, prepareNotification: Option<bool>)
    ensures AttributesOf(AssignTeamMemberBody(personId, teamPositionName, status, prepareNotification))
         == PresentAttributes(map["team_position_name" := OptString(teamPositionName), "status" := OptString(status),
                                  "prepare_notification" := OptBool(prepareNotification)])
  {
    PresentAttributesUnique(AttributesOf(AssignTeamMemberBody(personId, teamPositionName, status, prepareNotification)),
                            map["team_position_name" := OptString(teamPositionName), "status" := OptString(status),
                                "prepare_notification" := OptBool(prepareNotification)]);
  }

  /**
   * `create_song` is the one create tool that does not follow the PATCH filter: it agrees with
   * filtering `title` and `ccli_number` exactly when the CCLI number is not the empty string.
   */
  lemma SongFollowsPatchRuleUnlessEmpty(title: string, ccli: Option<string>)
    ensures CreateSongBody(title, ccli).attributes
         == PresentAttributes(map["title" := JString(title), "ccli_number" := OptString(ccli)])
        <==> ccli != Some("")
  {
    if ccli != Some("") {
      PresentAttributesUnique(CreateSongBody(title, ccli).attributes,
                              map["title" := JString(title), "ccli_number" := OptString(ccli)]);
    }
  }
}

=== FILE: envelope.dfy ===
/** The JSON:API write envelope and the "omit absent attributes" rule (`_build_patch_body`). */
module Envelope {
  import opened Wrappers
  import opened Json

  /** The `**kwargs` of a call: each keyword's value, with Python's `None` as `JNull`. */
  type Kwargs = map<string, Json>

  /** `attrs` holds `key` exactly when `v` is not null, and then with the value `v`. */
  predicate Carries(attrs: map<string, Json>, key: string, v: Json) {
    && (key in attrs <==> !v.JNull?)
    && (key in attrs ==> attrs[key] == v)
  }

  /** The `data` member of a write envelope; null when there is none. */
  function DataOf(body: Json): Json {
    Field(body, "data").GetOr(JNull)
  }

  /** The resource `type` named by a write envelope, if any. */
  function TypeOf(body: Json): Option<Json> {
    Field(DataOf(body), "type")
  }

  /** The attributes object of a write envelope `{data: {attributes}}`; empty when there is none. */
  function AttributesOf(body: Json): map<string, Json> {
    match Field(DataOf(body), "attributes")
    case Some(JObject(fields)) => fields
    case _ => map[]
  }

  /** The keyword arguments that are not `None`, each under its own name. */
  function PresentAttributes(kwargs: Kwargs): (attrs: map<string, Json>)
    ensures forall k :: k in kwargs ==> Carries(attrs, k, kwargs[k])
    ensures attrs.Keys <= kwargs.Keys
    ensures forall k :: k in attrs ==> !attrs[k].JNull?
  {
    map k | k in kwargs && !kwargs[k].JNull? :: kwargs[k]
  }

  /** The filtered map is the only map that carries every keyword argument and nothing else. */
  lemma PresentAttributesUnique(a: map<string, Json>, kwargs: Kwargs)
    requires forall k :: k in kwargs ==> Carries(a, k, kwargs[k])
    requires a.Keys <= kwargs.Keys
    ensures a == PresentAttributes(kwargs)
  {
    assert a.Keys == PresentAttributes(kwargs).Keys;
  }

  /** The PATCH body for `resourceType`: a `data` object holding the type and the supplied attributes. */
  function PatchBody(resourceType: string, kwargs: Kwargs): (body: Json)
    ensures KeysOf(body) == {"data"}
    ensures KeysOf(DataOf(body)) == {"type", "attributes"}
    ensures TypeOf(body) == Some(JString(resourceType))
    ensures Field(DataOf(body), "attributes") == Some(JObject(AttributesOf(body)))
    ensures forall k :: k in kwargs ==> Carries(AttributesOf(body), k, kwargs[k])
    ensures AttributesOf(body).Keys <= kwargs.Keys
  {
    JObject(map["data" := JObject(map[
      "type" := JString(resourceType),
      "attributes" := JObject(PresentAttributes(kwargs))])])
  }

  /** A PATCH with no argument supplied still yields a body, with an empty attributes object. */
  lemma PatchBodyAllAbsent(resourceType: string, kwargs: Kwargs)
    requires forall k :: k in kwargs ==> kwargs[k].JNull?
    ensures AttributesOf(PatchBody(resourceType, kwargs)) == map[]
  {
  }

  /** `_build_patch_body("X", a=1, b=None)` is exactly `{data: {type: "X", attributes: {a: 1}}}`. */
  lemma PatchBodyExample()
    ensures PatchBody("X", map["a" := JInt(1), "b" := JNull])
         == JObject(map["data" := JObject(map["type" := JString("X"),
                                              "attributes" := JObject(map["a" := JInt(1)])])])
  {
    var kwargs := map["a" := JInt(1), "b" := JNull];
    PresentAttributesUnique(map["a" := JInt(1)], kwargs);
  }
}

=== FILE: json.dfy ===
/** JSON values as the Python dictionaries and lists of the tool handlers see them. */
module Json {
  import opened Wrappers

  /** A JSON document. Objects are maps: key order of a Python dict is not modelled. */
  datatype Json =
    | JNull
    | JBool(b: bool)
    | JInt(i: int)
    | JString(s: string)
    | JArray(items: seq<Json>)
    | JObject(fields: map<string, Json>)

  /** The value found by following the object keys of `path` from `j`, if every step exists. */
  function At(j: Json, path: seq<string>): Option<Json>
    decreases |path|
  {
    if path == [] then Some(j)
    else match j
      case JObject(f) => if path[0] in f then At(f[path[0]], path[1..]) else None
      case _ => None
  }

  /** The member `key` of an object; nothing when `j` is not an object or has no such member. */
  function Field(j: Json, key: string): (v: Option<Json>)
    ensures v == At(j, [key])
  {
    if j.JObject? && key in j.fields then Some(j.fields[key]) else None
  }

  /** The keys of an object; a non-object has none. */
  function KeysOf(j: Json): set<string> {
    if j.JObject? then j.fields.Keys else {}
  }

  /** Python truthiness of a JSON value (`if x:`): null, false, 0, "", [] and {} are falsy. */
  predicate Truthy(j: Json) {
    match j
    case JNull => false
    case JBool(b) => b
    case JInt(i) => i != 0
    case JString(s) => s != ""
    case JArray(a) => a != []
    case JObject(m) => m != map[]
  }

  /** A Python `str` or `None` argument as a JSON value: a string, or null for `None`. */
  function OptString(o: Option<string>): Json {
    match o
    case Some(s) => JString(s)
    case None => JNull
  }

  /** A Python `int` or `None` argument as a JSON value: a number, or null for `None`. */
  function OptInt(o: Option<int>): Json {
    match o
    case Some(i) => JInt(i)
    case None => JNull
  }

  /** A Python `bool` or `None` argument as a JSON value: a boolean, or null for `None`. */
  function OptBool(o: Option<bool>): Json {
    match o
    case Some(b) => JBool(b)
    case None => JNull
  }

  /** A Python `list[str]` as a JSON array of strings, element for element. */
  function Strings(xs: seq<string>): Json {
    JArray(seq(|xs|, i requires 0 <= i < |xs| => JString(xs[i])))
  }

  /** Reads a JSON array of strings back into a list, failing on anything else. */
  function StringsOf(j: Json): Option<seq<string>> {
    if j.JArray? && forall i :: 0 <= i < |j.items| ==> j.items[i].JString?
    then Some(seq(|j.items|, i requires 0 <= i < |j.items| => j.items[i].s))
    else None
  }

  /** Reading back a string array gives the original list. */
  lemma StringsRoundTrip(xs: seq<string>)
    ensures StringsOf(Strings(xs)) == Some(xs)
  {
    var r := Strings(xs);
    assert forall i :: 0 <= i < |r.items| ==> r.items[i].JString?;
    assert StringsOf(r).value == xs;
  }
}

=== FILE: tags.dfy ===
/**
 * Tag-name resolution and the two tools built on it, `assign_tags_to_song` and
 * `find_songs_by_tags`. Both first GET the song tag groups with their tags included, then
 * resolve each requested name, in order, to the first included `Tag` whose name matches it
 * case-insensitively; names with no match are dropped.
 */
module Tags {
  import opened Wrappers
  import opened Json
  import opened Text
  import opened Envelope

  /** One entry of the `included` array of the tag-groups response. */
  datatype Resource = Resource(rtype: string, id: string, name: string)

  /** The tag-groups response; `included` may be missing altogether. */
  datatype TagGroupsResponse = TagGroupsResponse(included: Option<seq<Resource>>)

  /** An upstream call issued by a tool. */
  datatype Request = Get(path: string) | Post(path: string, body: Json)

  /** The upstream calls a tool issued, in order, and what it returned to its caller. */
  datatype Exchange<T> = Exchange(requests: seq<Request>, result: T)

  /** The `{success, message}` record the tools return instead of upstream data. */
  datatype Confirmation = Confirmation(success: bool, message: string)

  const TagGroupsPath: string := "/services/v2/tag_groups?include=tags&filter=song"
  const SongsQueryPrefix: string := "/services/v2/songs?per_page=200&where[hidden]=false&"
  const TagClausePrefix: string := "where[song_tag_ids]="
  const NoMatchMessage: string := "No matching tags found"

  /** The included entries of the tag-groups response; none when the member is absent. */
  function IncludedTags(resp: TagGroupsResponse): seq<Resource> {
    resp.included.GetOr([])
  }

  /** The loop's test: a `Tag` entry whose lower-cased name equals the lower-cased request. */
  predicate IsMatch(r: Resource, requested: string) {
    r.rtype == "Tag" && Lower(r.name) == Lower(requested)
  }

  /** The position of the first included entry matching `requested`, if any. */
  function FirstMatch(included: seq<Resource>, requested: string): (r: Option<nat>)
    ensures r.Some? ==> r.value < |included| && IsMatch(included[r.value], requested)
    ensures r.Some? ==> forall j :: 0 <= j < r.value ==> !IsMatch(included[j], requested)
    ensures r.None? ==> forall j :: 0 <= j < |included| ==> !IsMatch(included[j], requested)
  {
    if included == [] then None
    else if IsMatch(included[0], requested) then Some(0)
    else match FirstMatch(included[1..], requested)
      case None => None
      case Some(i) => Some(i + 1)
  }

  /** `id` is the id of an included entry that matches one of the requested names. */
  predicate IdOfMatch(included: seq<Resource>, names: seq<string>, id: string) {
    exists j, m :: 0 <= j < |included| && 0 <= m < |names| && IsMatch(included[j], names[m]) && included[j].id == id
  }

  /** No requested name matches any included entry. */
  predicate NoNameMatches(included: seq<Resource>, names: seq<string>) {
    forall m :: 0 <= m < |names| ==> FirstMatch(included, names[m]).None?
  }

  /** What one requested name contributes: the first match's id, or nothing. */
  function MatchedIds(included: seq<Resource>, requested: string): seq<string> {
    match FirstMatch(included, requested)
    case None => []
    case Some(i) => [included[i].id]
  }

  /** The resolved ids: what each requested name contributes, in the order of `names`. */
  function ResolveTagIds(names: seq<string>, included: seq<Resource>): (ids: seq<string>)
    ensures |ids| <= |names|
  {
    if names == [] then [] else MatchedIds(included, names[0]) + ResolveTagIds(names[1..], included)
  }

  /** Every resolved id is that of an included `Tag` entry that matches one of the requested names. */
  lemma {:induction false} ResolvedIdsAreMatches(names: seq<string>, included: seq<Resource>)
    ensures forall k :: 0 <= k < |ResolveTagIds(names, included)| ==> IdOfMatch(included, names, ResolveTagIds(names, included)[k])
  {
    if names != [] {
      var rest := ResolveTagIds(names[1..], included);
      ResolvedIdsAreMatches(names[1..], included);
      forall id | IdOfMatch(included, names[1..], id)
        ensures IdOfMatch(included, names, id)
      {
        var j, m :| 0 <= j < |included| && 0 <= m < |names[1..]| && IsMatch(included[j], names[1..][m]) && included[j].id == id;
        assert IsMatch(included[j], names[m + 1]);
      }
      match FirstMatch(included, names[0])
      case None =>
      case Some(j) =>
        assert IdOfMatch(included, names, included[j].id) by {
          assert IsMatch(included[j], names[0]);
        }
    }
  }

  /** Nothing is resolved exactly when no requested name matches. */
  lemma {:induction false} ResolvedNothingIffNoMatch(names: seq<string>, included: seq<Resource>)
    ensures ResolveTagIds(names, included) == [] <==> NoNameMatches(included, names)
  {
    if names != [] {
      ResolvedNothingIffNoMatch(names[1..], included);
      assert forall m :: 1 <= m < |names| ==> names[m] == names[1..][m - 1];
      assert NoNameMatches(included, names)
         <==> FirstMatch(included, names[0]).None? && NoNameMatches(included, names[1..]);
    }
  }

  /** Resolution distributes over concatenation of the requests: the output follows their order. */
  lemma {:induction false} ResolveAppend(a: seq<string>, b: seq<string>, included: seq<Resource>)
    ensures ResolveTagIds(a + b, included) == ResolveTagIds(a, included) + ResolveTagIds(b, included)
  {
    if a != [] {
      assert (a + b)[1..] == a[1..] + b;
      ResolveAppend(a[1..], b, included);
    } else {
      assert a + b == b;
    }
  }

  /**
   * When every requested name matches, the i-th id is the id of the first match for the i-th
   * name, so a name requested twice yields its id twice.
   */
  lemma {:induction false} ResolveAllMatched(names: seq<string>, included: seq<Resource>)
    requires forall m :: 0 <= m < |names| ==> FirstMatch(included, names[m]).Some?
    ensures |ResolveTagIds(names, included)| == |names|
    ensures forall m :: 0 <= m < |names| ==>
      ResolveTagIds(names, included)[m] == included[FirstMatch(included, names[m]).value].id
  {
    if names != [] {
      var rest := ResolveTagIds(names[1..], included);
      ResolveAllMatched(names[1..], included);
      var i := FirstMatch(included, names[0]).value;
      assert ResolveTagIds(names, included) == [included[i].id] + rest;
      forall m | 1 <= m < |names|
        ensures ResolveTagIds(names, included)[m] == included[FirstMatch(included, names[m]).value].id
      {
        assert names[m] == names[1..][m - 1];
      }
    }
  }

  /** Requesting the same name twice resolves it twice, to the same first match. */
  lemma DuplicateRequestRepeatsId(requested: string, included: seq<Resource>)
    requires FirstMatch(included, requested).Some?
    ensures ResolveTagIds([requested, requested], included)
         == [included[FirstMatch(included, requested).value].id, included[FirstMatch(included, requested).value].id]
  {
  }

  /** Names that differ only in letter case select the same entry. */
  lemma FirstMatchIgnoresCase(included: seq<Resource>, a: string, b: string)
    requires Lower(a) == Lower(b)
    ensures FirstMatch(included, a) == FirstMatch(included, b)
  {
  }

  /** Request lists that agree up to letter case resolve to the same ids. */
  lemma {:induction false} ResolveIgnoresCase(names: seq<string>, others: seq<string>, included: seq<Resource>)
    requires |names| == |others|
    requires forall m :: 0 <= m < |names| ==> Lower(names[m]) == Lower(others[m])
    ensures ResolveTagIds(names, included) == ResolveTagIds(others, included)
  {
    if names != [] {
      FirstMatchIgnoresCase(included, names[0], others[0]);
      assert forall m :: 1 <= m < |names| ==> names[m] == names[1..][m - 1] && others[m] == others[1..][m - 1];
      ResolveIgnoresCase(names[1..], others[1..], included);
    }
  }

  /** Two case variants of "Worship": a request for "WORSHIP" resolves to the first one listed. */
  lemma FirstCaseVariantWins()
    ensures ResolveTagIds(["WORSHIP"], [Resource("Tag", "1", "Worship"), Resource("Tag", "2", "worship")]) == ["1"]
  {
  }

  /** Resolving one more name appends what that name contributes. */
  lemma ResolveSnoc(names: seq<string>, n: nat, included: seq<Resource>)
    requires n < |names|
    ensures ResolveTagIds(names[..n + 1], included) == ResolveTagIds(names[..n], included) + MatchedIds(included, names[n])
  {
    ResolveAppend(names[..n], [names[n]], included);
    assert names[..n + 1] == names[..n] + [names[n]];
    assert ResolveTagIds([names[n]], included) == MatchedIds(included, names[n]) + ResolveTagIds([], included) by {
      assert [names[n]][1..] == [];
    }
  }

  /** An entry that matches, with no match before it, is the first match. */
  lemma FirstMatchAt(included: seq<Resource>, requested: string, k: nat)
    requires k < |included| && IsMatch(included[k], requested)
    requires forall j :: 0 <= j < k ==> !IsMatch(included[j], requested)
    ensures FirstMatch(included, requested) == Some(k)
  {
  }

  /**
   * The nested loop as the tools write it: for each requested name, scan the included entries
   * and append the first match's id, then `break`.
   */
  method ResolveTagIdsByScan(names: seq<string>, included: seq<Resource>) returns (ids: seq<string>)
    ensures ids == ResolveTagIds(names, included)
  {
    ids := [];
    var n := 0;
    while n < |names|
      invariant 0 <= n <= |names|
      invariant ids == ResolveTagIds(names[..n], included)
    {
      ResolveSnoc(names, n, included);
      var k := 0;
      while k < |included|
        invariant 0 <= k <= |included|
        invariant forall j :: 0 <= j < k ==> !IsMatch(included[j], names[n])
        invariant ids == ResolveTagIds(names[..n], included)
      {
        if IsMatch(included[k], names[n]) {
          FirstMatchAt(included, names[n], k);
          ids := ids + [included[k].id];
          break;
        }
        k := k + 1;
      }
      assert ids == ResolveTagIds(names[..n + 1], included);
      n := n + 1;
    }
    assert names[..n] == names;
  }

  // ---------------------------------------------------------------------------
  // assign_tags_to_song
  // ---------------------------------------------------------------------------

  /** A reference to the tag `id`: an object with type `Tag` and that id. */
  function TagRef(id: string): Json {
    JObject(map["type" := JString("Tag"), "id" := JString(id)])
  }

  /** The tag references of the assignment, one per resolved id and in the same order. */
  function TagRefs(ids: seq<string>): seq<Json> {
    seq(|ids|, i requires 0 <= i < |ids| => TagRef(ids[i]))
  }

  /** A well-formed tag reference: an object of type `Tag` whose id is a string. */
  predicate IsTagRef(ref: Json) {
    && ref.JObject?
    && "type" in ref.fields && ref.fields["type"] == JString("Tag")
    && "id" in ref.fields && ref.fields["id"].JString?
  }

  /** Reads the ids back out of a list of tag references, failing on any malformed entry. */
  function RefIdsOf(refs: seq<Json>): Option<seq<string>> {
    if forall i :: 0 <= i < |refs| ==> IsTagRef(refs[i])
    then Some(seq(|refs|, i requires 0 <= i < |refs| && IsTagRef(refs[i]) => refs[i].fields["id"].s))
    else None
  }

  /** The assignment's tag references read back as exactly the resolved ids, in order. */
  lemma TagRefsRoundTrip(ids: seq<string>)
    ensures RefIdsOf(TagRefs(ids)) == Some(ids)
  {
    var refs := TagRefs(ids);
    assert forall i :: 0 <= i < |refs| ==> IsTagRef(refs[i]);
    assert RefIdsOf(refs).value == ids;
  }

  /** The `TagAssignment` POST body: no attributes, the resolved tags as its `tags` relationship. */
  function AssignTagsBody(ids: seq<string>): (body: Json)
    ensures KeysOf(body) == {"data"} && KeysOf(DataOf(body)) == {"type", "attributes", "relationships"}
    ensures TypeOf(body) == Some(JString("TagAssignment"))
    ensures Field(DataOf(body), "attributes") == Some(JObject(map[]))
    ensures Field(DataOf(body), "relationships")
         == Some(JObject(map["tags" := JObject(map["data" := JArray(TagRefs(ids))])]))
  {
    JObject(map["data" := JObject(map[
      "type" := JString("TagAssignment"),
      "attributes" := JObject(map[]),
      "relationships" := JObject(map["tags" := JObject(map["data" := JArray(TagRefs(ids))])])])])
  }

  /**
   * `assign_tags_to_song`, given the tag-groups response. With nothing resolved it fails soft
   * after the single GET; otherwise it POSTs one assignment carrying every resolved tag in order
   * and reports how many it assigned.
   */
  function AssignTagsToSong(songId: string, tagNames: seq<string>, tagGroups: TagGroupsResponse): (r: Exchange<Confirmation>)
    ensures !r.result.success <==> NoNameMatches(IncludedTags(tagGroups), tagNames)
    ensures !r.result.success ==> r == Exchange([Get(TagGroupsPath)], Confirmation(false, NoMatchMessage))
    ensures var ids := ResolveTagIds(tagNames, IncludedTags(tagGroups));
      r.result.success ==>
        && |r.requests| == 2
        && r.requests[0] == Get(TagGroupsPath)
        && r.requests[1] == Post("/services/v2/songs/" + songId + "/assign_tags", AssignTagsBody(ids))
        && r.result.message == "Successfully assigned " + NatToString(|ids|) + " tag(s) to song " + songId
  {
    var ids := ResolveTagIds(tagNames, IncludedTags(tagGroups));
    ResolvedNothingIffNoMatch(tagNames, IncludedTags(tagGroups));
    if ids == [] then
      Exchange([Get(TagGroupsPath)], Confirmation(false, NoMatchMessage))
    else
      Exchange([Get(TagGroupsPath), Post("/services/v2/songs/" + songId + "/assign_tags", AssignTagsBody(ids))],
               Confirmation(true, "Successfully assigned " + NatToString(|ids|) + " tag(s) to song " + songId))
  }

  // ---------------------------------------------------------------------------
  // find_songs_by_tags
  // ---------------------------------------------------------------------------

  /** One `where[song_tag_ids]=` clause per id, in order, joined by `&`. */
  function TagFilter(ids: seq<string>): string {
    JoinAmp(seq(|ids|, i requires 0 <= i < |ids| => TagClausePrefix + ids[i]))
  }

  /** Reads the tag ids back out of `&`-separated `where[song_tag_ids]=` clauses. */
  function ParseClauses(clauses: seq<string>): Option<seq<string>> {
    if clauses == [] then Some([])
    else if |clauses[0]| >= |TagClausePrefix| && clauses[0][..|TagClausePrefix|] == TagClausePrefix then
      match ParseClauses(clauses[1..])
      case None => None
      case Some(rest) => Some([clauses[0][|TagClausePrefix|..]] + rest)
    else None
  }

  /** The ids a tag filter selects on. */
  function ParseTagFilter(filter: string): Option<seq<string>> {
    ParseClauses(SplitAmp(filter))
  }

  lemma {:induction false} ParseClausesOfIds(ids: seq<string>)
    ensures ParseClauses(seq(|ids|, i requires 0 <= i < |ids| => TagClausePrefix + ids[i])) == Some(ids)
  {
    var clauses := seq(|ids|, i requires 0 <= i < |ids| => TagClausePrefix + ids[i]);
    if ids != [] {
      assert clauses[0][..|TagClausePrefix|] == TagClausePrefix;
      assert clauses[0][|TagClausePrefix|..] == ids[0];
      assert clauses[1..] == seq(|ids[1..]|, i requires 0 <= i < |ids[1..]| => TagClausePrefix + ids[1..][i]);
      ParseClausesOfIds(ids[1..]);
      assert ids == [ids[0]] + ids[1..];
    }
  }

  /** When no id contains `&`, the filter selects on exactly the resolved ids, in order. */
  lemma TagFilterRoundTrip(ids: seq<string>)
    requires ids != []
    requires forall i :: 0 <= i < |ids| ==> '&' !in ids[i]
    ensures ParseTagFilter(TagFilter(ids)) == Some(ids)
  {
    var clauses := seq(|ids|, i requires 0 <= i < |ids| => TagClausePrefix + ids[i]);
    forall i | 0 <= i < |clauses|
      ensures '&' !in clauses[i]
    {
      assert '&' !in TagClausePrefix;
    }
    SplitJoinRoundTrip(clauses);
    ParseClausesOfIds(ids);
  }

  /**
   * `find_songs_by_tags`, given the tag-groups response and the `data` of the songs response.
   * With nothing resolved it returns `[]` without a second request; otherwise it issues one
   * songs GET whose query is the fixed prefix followed by the tag filter, and returns its data.
   */
  function FindSongsByTags(tagNames: seq<string>, tagGroups: TagGroupsResponse, songsData: Json): (r: Exchange<Json>)
    ensures |r.requests| >= 1 && r.requests[0] == Get(TagGroupsPath)
    ensures |r.requests| == 1 <==> NoNameMatches(IncludedTags(tagGroups), tagNames)
    ensures |r.requests| == 1 ==> r.result == JArray([])
    ensures |r.requests| != 1 ==>
      r == Exchange([Get(TagGroupsPath), Get(SongsQueryPrefix + TagFilter(ResolveTagIds(tagNames, IncludedTags(tagGroups))))], songsData)
  {
    var ids := ResolveTagIds(tagNames, IncludedTags(tagGroups));
    ResolvedNothingIffNoMatch(tagNames, IncludedTags(tagGroups));
    if ids == [] then Exchange([Get(TagGroupsPath)], JArray([]))
    else Exchange([Get(TagGroupsPath), Get(SongsQueryPrefix + TagFilter(ids))], songsData)
  }

  /**
   * The songs query of `find_songs_by_tags` carries one clause per resolved id, in order, after
   * the fixed prefix, assuming that no id contains `&`, which the code does not check.
   */
  lemma FindSongsQuerySelectsResolvedIds(tagNames: seq<string>, tagGroups: TagGroupsResponse, songsData: Json)
    requires ResolveTagIds(tagNames, IncludedTags(tagGroups)) != []
    requires forall i :: 0 <= i < |IncludedTags(tagGroups)| ==> '&' !in IncludedTags(tagGroups)[i].id
    ensures var r := FindSongsByTags(tagNames, tagGroups, songsData);
      && |r.requests| == 2
      && r.requests[1].Get?
      && r.requests[1].path[..|SongsQueryPrefix|] == SongsQueryPrefix
      && ParseTagFilter(r.requests[1].path[|SongsQueryPrefix|..]) == Some(ResolveTagIds(tagNames, IncludedTags(tagGroups)))
  {
    var ids := ResolveTagIds(tagNames, IncludedTags(tagGroups));
    var path := SongsQueryPrefix + TagFilter(ids);
    assert path[|SongsQueryPrefix|..] == TagFilter(ids);
    ResolvedIdsAreMatches(tagNames, IncludedTags(tagGroups));
    forall i | 0 <= i < |ids|
      ensures '&' !in ids[i]
    {
      var j, m :| 0 <= j < |IncludedTags(tagGroups)| && 0 <= m < |tagNames|
                  && IsMatch(IncludedTags(tagGroups)[j], tagNames[m]) && IncludedTags(tagGroups)[j].id == ids[i];
    }
    TagFilterRoundTrip(ids);
  }

  /**
   * The two tools share their soft-failure condition: assignment fails soft exactly when the
   * search stops after its first request.
   */
  lemma SoftFailuresCoincide(songId: string, tagNames: seq<string>, tagGroups: TagGroupsResponse, songsData: Json)
    ensures !AssignTagsToSong(songId, tagNames, tagGroups).result.success
        <==> |FindSongsByTags(tagNames, tagGroups, songsData).requests| == 1
  {
  }
}

=== FILE: text.dfy ===
/** String utilities the tool handlers rely on: case folding, decimal formatting, `&`-joining. */
module Text {

  /** ASCII lower-casing of one character; every other character is left as it is. */
  function LowerChar(c: char): (r: char)
    ensures 'A' <= c <= 'Z' ==> r as int == c as int + 32
    ensures !('A' <= c <= 'Z') ==> r == c
  {
    if 'A' <= c <= 'Z' then (c as int - 'A' as int + 'a' as int) as char else c
  }

  /** Lower-cases the ASCII letters of `s` and leaves every other character unchanged. */
  function Lower(s: string): (r: string)
    ensures |r| == |s|
    ensures forall i :: 0 <= i < |r| ==> !('A' <= r[i] <= 'Z')
    ensures forall i :: 0 <= i < |s| ==> (r[i] == s[i] <==> !('A' <= s[i] <= 'Z'))
  {
    seq(|s|, i requires 0 <= i < |s| => LowerChar(s[i]))
  }

  function DigitChar(d: int): (c: char)
    requires 0 <= d < 10
  {
    ('0' as int + d) as char
  }

  function DigitValue(c: char): int {
    c as int - '0' as int
  }

  /** The decimal rendering of a count, as Python's `f"{n}"` prints it. */
  function NatToString(n: nat): (s: string)
    ensures |s| >= 1
    ensures forall i :: 0 <= i < |s| ==> '0' <= s[i] <= '9'
  {
    if n < 10 then [DigitChar(n)] else NatToString(n / 10) + [DigitChar(n % 10)]
  }

  /** The value of a string of decimal digits. */
  function ParseNat(s: string): int {
    if s == [] then 0 else ParseNat(s[..|s| - 1]) * 10 + DigitValue(s[|s| - 1])
  }

  /** Reading the decimal rendering back gives the count: distinct counts give distinct messages. */
  lemma {:induction false} NatToStringRoundTrip(n: nat)
    ensures ParseNat(NatToString(n)) == n
  {
    var s := NatToString(n);
    if n < 10 {
      assert s[..|s| - 1] == [];
    } else {
      assert s[..|s| - 1] == NatToString(n / 10);
      NatToStringRoundTrip(n / 10);
    }
  }

  /** The pieces in order with one `&` between neighbours. */
  function JoinAmp(parts: seq<string>): string {
    if |parts| == 0 then ""
    else if |parts| == 1 then parts[0]
    else parts[0] + "&" + JoinAmp(parts[1..])
  }

  /** The maximal `&`-free pieces of `s`, in order: always at least one, possibly empty. */
  function SplitAmp(s: string): (parts: seq<string>)
    ensures |parts| >= 1
  {
    if s == [] then [""]
    else
      var rest := SplitAmp(s[1..]);
      if s[0] == '&' then [""] + rest else [[s[0]] + rest[0]] + rest[1..]
  }

  /** A piece with no `&` stays whole when split, together with what follows it. */
  lemma {:induction false} SplitPiece(p: string, t: string)
    requires '&' !in p
    ensures SplitAmp(p + t)[0] == p + SplitAmp(t)[0]
    ensures SplitAmp(p + t)[1..] == SplitAmp(t)[1..]
  {
    if p == [] {
      assert p + t == t;
    } else {
      assert (p + t)[0] == p[0] && p[0] != '&';
      assert (p + t)[1..] == p[1..] + t;
      SplitPiece(p[1..], t);
      assert p == [p[0]] + p[1..];
    }
  }

  /** Splitting undoes joining when no piece contains the separator. */
  lemma {:induction false} SplitJoinRoundTrip(parts: seq<string>)
    requires |parts| >= 1
    requires forall i :: 0 <= i < |parts| ==> '&' !in parts[i]
    ensures SplitAmp(JoinAmp(parts)) == parts
  {
    if |parts| == 1 {
      SplitPiece(parts[0], "");
      assert parts[0] + "" == parts[0];
    } else {
      var tail := JoinAmp(parts[1..]);
      assert JoinAmp(parts) == parts[0] + ("&" + tail);
      SplitPiece(parts[0], "&" + tail);
      assert ("&" + tail)[1..] == tail;
      SplitJoinRoundTrip(parts[1..]);
      var joined := SplitAmp(JoinAmp(parts));
      assert SplitAmp("&" + tail) == [""] + SplitAmp(tail);
      assert joined[0] == parts[0] + "" == parts[0];
      assert joined[1..] == parts[1..];
      assert joined == [joined[0]] + joined[1..];
    }
  }
}

=== FILE: wrappers.dfy ===
/** Optional values and success-or-error results, shared by the rest of the model. */
module Wrappers {

  /** A value that may be absent; stands for Python's `None` default arguments. */
  datatype Option<+T> = None | Some(value: T) {

    /** The wrapped value, or `default` when absent. */
    function GetOr(default: T): T {
      match this
      case Some(v) => v
      case None => default
    }
  }

  /** Either a value or an error; stands for a Python call that may raise. */
  datatype Result<+R, +E> = Success(value: R) | Failure(error: E)
}
